=== FILE: README.md ===
# NeonCloud marketplace rules in Dafny

NeonCloud is a digital-goods marketplace. Most of it is UI and library glue,
but it still has a small set of sequential rules. This project models those
rules as pure functions over immutable data and proves properties about them:

- **Payment webhook** (`StripeWebhook`). The payment provider calls this handler
  when a checkout session changes state. In order, the handler:
  1. rejects a request whose signature header is missing, or empty (400);
  2. turns a failed signature verification into a 500;
  3. acknowledges every event except `checkout.session.completed` without
     changing anything;
  4. requires the customer's email, then the `userId` and `orderId` metadata,
     then complete shipping and billing addresses, then an existing order;
  5. marks the order paid and records one shipping and one billing address row;
  6. asks the mail endpoint to send a confirmation.

  The order table is `map<string, Order>`. Two things are inputs: the
  provider's signature check (`Verification`) and whether the mail request
  throws.
- **Cart store and cart sheet** (`CartStore`, `CartView`). The cart is a list
  with append, remove-by-product-id and clear. The sheet shows:
  - the item-count badge, which is 0 until the component has mounted;
  - the total: a left fold over prices, plus a fixed fee of 1;
  - the empty state or the summary, depending on whether there are items.
- **Validators** (`Schemas`). Each form schema (create product, become
  seller, change name) has a declarative validity predicate and a list of the
  issues it reports. Each issue function's postcondition states that the list
  is empty exactly when the input is valid. The product query (`QueryValidator`) has a parser and an encoder
  that round-trip.
- **Product queries** (`ProductData`, `ProductReel`). `getProducts` keeps
  approved products, filters by category if one is given, sorts by
  `createdAt` if a sort is given, and takes `limit || 4` rows. `getProductById`
  looks up by id and status. The reel shows the fetched products, or, while
  there are none, `limit ?? 4` placeholders.
- **UI state machines and decision tables**:
  - `NavItems`: the category menu's open item;
  - `ImageSlider`: which end of the slider is reached and which buttons are
    active;
  - `Navbar`: the menu for visitors, sellers and the admin, and the account
    menu;
  - `SiteMetadata`: `constructMetadata`.

Prices are exact `real`s. Optional values use `Types.Option`, where `None`
stands for `null`/`undefined`. `Types.Present` models JavaScript truthiness of
optional strings: an absent value and `""` are both falsy.

### Behaviour worth knowing

- **Signature failures.** The answer is 400 only when the signature header is
  missing or empty. A signature that the provider's check rejects throws, and
  the outer `catch` turns that into 500 (`ForgedSignatureIsServerError`).
- **Check order.** The customer email is checked before the `userId` and
  `orderId` metadata (`MissingEmailCheckedFirst`).
- **Redelivery.** Nothing checks whether the order is already paid. Every
  delivery of a completed event records another shipping and billing address
  row and sends another mail (`RedeliveryIsNotIdempotent`). The extra rows
  rest on the schema assumption under "Left out": address relations are a
  list of created rows. The guarded variant is under Findings.
- **Double toggle in the category menu.** Clicking the same item twice
  closes everything, except when that item was open to begin with. Then the
  first click closes it and the second reopens it (`NavItems.DoubleToggle`).

## Model

| member | source | states |
|---|---|---|
| Schemas.Utf16Length | src/lib/zod-schemas.ts:8-12 | string lengths for `.min` and `.max` are counted in UTF-16 code units: between one and two per character, zero only for the empty string, and one per character when no character is above U+FFFF |
| Schemas.ParseCategory | src/lib/zod-schemas.ts:5 | a category is accepted iff it is `ui_kits` or `icons`, and the parsed value spells back to the input |
| Schemas.CategoryRoundTrip | src/lib/zod-schemas.ts:5 | parsing the spelling of any category gives that category back |
| Schemas.CategoryIssues | src/lib/zod-schemas.ts:5 | the enum schema reports the category field iff the value is not a category, with at most one issue, whose message lists both options and echoes the input |
| Schemas.ImageIssues | src/lib/zod-schemas.ts:17 | the element schema of `productImages` reports nothing iff every URL is non-empty; every empty URL gets an issue at its own index, and every issue points at an empty URL |
| Schemas.ImageCountIssues | src/lib/zod-schemas.ts:17-19 | the image-count check flags `productImages` iff there are fewer than 1 or more than 3 |
| Schemas.CreateProductIssues | src/lib/zod-schemas.ts:7-20 | the create-product schema reports no issue iff name, price and file are non-empty, details have 1 to 350 UTF-16 units, the category is valid and there are 1 to 3 non-empty image URLs |
| Schemas.CreateProductFieldIssues | src/lib/zod-schemas.ts:8-19 | name, details, price, category, file and image count are each flagged exactly when their own rule fails |
| Schemas.BecomeSellerIssues | src/lib/zod-schemas.ts:22-29 | the become-seller schema reports no issue iff the email is non-empty (no format check), details have 1 to 300 units and the category is valid |
| Schemas.BecomeSellerFieldIssues | src/lib/zod-schemas.ts:22-29 | email, details and category are each flagged exactly when their own rule fails |
| Schemas.ChangeNameIssues | src/lib/zod-schemas.ts:31-33 | the change-name schema accepts exactly the non-empty names and reports only on the name |
| Schemas.ParseSort | src/lib/zod-schemas.ts:37 | a sort is accepted iff it is `asc` or `desc`, and the parsed value spells back to the input |
| Schemas.ParseQuery | src/lib/zod-schemas.ts:35-39 | a query validates iff its category (if present) and sort (if present) are in their enums; the limit passes through unchanged |
| Schemas.QueryRoundTrip | src/lib/zod-schemas.ts:35-39 | every validated query encodes to a raw query that validates back to itself |
| Schemas.QueryParseIsEncodeInverse | src/lib/zod-schemas.ts:35-39 | a raw query that validates is exactly the encoding of its parsed form |
| ProductData.SortByCreatedAt | src/data/product.ts:16-18 | ordering by `createdAt` in a direction yields a sorted permutation of the rows |
| ProductData.Matching | src/data/product.ts:11-14 | the `where` clause keeps exactly the approved rows of the given category, or of every category when none is given, each as often as it is stored |
| ProductData.Take | src/data/product.ts:15 | `limit \|\| 4` is never 0: an absent or zero limit becomes 4, any other limit is used as given |
| ProductData.TakeRows | src/data/product.ts:15 | a take of n rows returns min(\|n\|, length) rows, a prefix for n >= 0 and a suffix for n < 0, and keeps sortedness |
| ProductData.Ordered | src/data/product.ts:10-19 | before the take, the rows are a permutation of the matching rows, sorted when a sort is given |
| ProductData.GetProducts | src/data/product.ts:8-27 | every returned product is a stored, approved row of the requested category; the count is min(\|limit \|\| 4\|, matching rows); with a sort the result is ordered by `createdAt`; no row comes back more often than it matches |
| ProductData.GetProductsIsTopOfOrdering | src/data/product.ts:15-18 | with a sort and a positive limit, the returned rows plus the rows left out are exactly the matching rows, and every returned row may precede every row left out |
| ProductData.GetProductsReturnsAllWhenFew | src/data/product.ts:15 | when the limit admits every matching row, the result holds all of them |
| ProductData.ZeroLimitMeansFour | src/data/product.ts:15 | limit 0 behaves like an absent limit, which returns min(4, matching rows) rows |
| ProductData.GetProductById | src/data/product.ts:29-42 | the result is a stored row with the given id and status; it is missing (the non-null assertion fails) iff no such row exists |
| ProductData.GetProductByIdFindsStoredRow | src/data/product.ts:31-36 | with unique ids, looking up a stored row by its id and status returns that row |
| ProductReel.PlaceholderCount | src/components/Product/ProductReel.tsx:42 | only an absent limit falls back to 4; any present limit, including 0 or a negative one, is used as given |
| ProductReel.PlaceholderCountVersusTake | src/components/Product/ProductReel.tsx:42 | `limit ?? 4` and `limit \|\| 4` agree on every limit except 0, where the reel shows 0 placeholders but the query takes 4 |
| ProductReel.Slots | src/components/Product/ProductReel.tsx:38-43 | fetched products are shown exactly, in order; with none, `limit ?? 4` placeholders are shown, and a count that is not a valid array length (negative or above 2^32 - 1) throws |
| ProductReel.Listings | src/components/Product/ProductReel.tsx:73-79 | each listing gets the entry at its position and an `index` equal to that position |
| ProductReel.EmptyReelPlaceholders | src/components/Product/ProductReel.tsx:41-43 | with nothing fetched, no limit gives four placeholders and limit 0 gives none |
| ProductReel.ReelOfQueryIsBounded | src/components/Product/ProductReel.tsx:30-43 | when the product query returns at least one product, a reel fed by it shows at most the query's take, and only approved products |
| CartStore.EmptyCart | src/hooks/use-cart.ts:25 | the store starts with no items: removing from the fresh cart changes nothing, and a first add yields exactly one item |
| CartStore.AddItem | src/hooks/use-cart.ts:27-31 | adding appends exactly one item for the product and leaves earlier items untouched; duplicates are allowed |
| CartStore.RemoveItem | src/hooks/use-cart.ts:32-36 | after removal no item has the id, and every item with another id is kept |
| CartStore.ClearCart | src/hooks/use-cart.ts:38 | clearing yields the empty cart from any state |
| CartStore.RemoveItemDistributes | src/hooks/use-cart.ts:35 | removal distributes over concatenation, so relative order is kept |
| CartStore.RemoveItemCounts | src/hooks/use-cart.ts:35 | every item of another product keeps its multiplicity, and items of the removed id drop to 0 |
| CartStore.RemoveAbsentIsIdentity | src/hooks/use-cart.ts:35 | removing an id that no item has leaves the cart unchanged |
| CartStore.RemoveItemIdempotent | src/hooks/use-cart.ts:35 | removing the same id twice equals removing it once |
| CartStore.RemoveAfterAdd | src/hooks/use-cart.ts:27-36 | removing a product just added also removes every earlier copy of it |
| CartStore.AddRemoveCommute | src/hooks/use-cart.ts:27-36 | adding a product and removing a different id commute |
| CartStore.RemovalsCommute | src/hooks/use-cart.ts:32-36 | two removals give the same cart in either order |
| CartStore.ClearAfterAnything | src/hooks/use-cart.ts:38 | any sequence of actions ending with a clear leaves the empty cart |
| CartStore.ItemsComeFromAdds | src/hooks/use-cart.ts:25-38 | every item in the cart was there at the start or was put there by an `addItem` |
| CartView.Reduce | src/components/Cart/Cart.tsx:36-39 | the left fold over prices from an accumulator equals the accumulator plus the sum of the prices |
| CartView.CartTotal | src/components/Cart/Cart.tsx:36-39 | `cartTotal` is the sum of the item prices, and 0 for an empty cart |
| CartView.SumAppend | src/components/Cart/Cart.tsx:36-39 | the total is additive over concatenation of item lists |
| CartView.TotalAfterAdd | src/components/Cart/Cart.tsx:36-39 | after `addItem(p)` the total is the old total plus `p.price` |
| CartView.TotalAfterRemove | src/components/Cart/Cart.tsx:36-39 | after `removeItem(id)` the total drops by exactly the prices of that product's items |
| CartView.Render | src/components/Cart/Cart.tsx:27-136 | the badge shows the item count once mounted and 0 before; the summary shows iff there are items, listing their products in order with fee 1 and total = sum + fee |
| CartView.DisplayedTotal | src/components/Cart/Cart.tsx:85 | the displayed total is the sum of the item prices plus the fee, so an empty cart's would equal the fee |
| CartView.SheetAfterAdd | src/components/Cart/Cart.tsx:36-85 | after adding a product the summary is shown, the displayed total rises by its price, and a mounted badge counts one more |
| CartView.SheetAfterClear | src/components/Cart/Cart.tsx:52-136 | after clearing, the sheet shows the empty state and a zero badge |
| StripeWebhook.MetadataValue | src/app/api/webhooks/stripe/route.ts:56-59 | a metadata key is present iff the metadata exists and holds the key, and then its value is the stored one |
| StripeWebhook.StatusCode | src/app/api/webhooks/stripe/route.ts:30-143 | 400 exactly for the missing signature, 200 exactly for the acknowledgement, and 500 for every thrown error and for the failed mail request |
| StripeWebhook.ToAddress | src/app/api/webhooks/stripe/route.ts:79-98 | an address row exists iff name, city, country, postal code and line1 are all present; it copies them, with `street` from line1 and the nullable state |
| StripeWebhook.MarkPaid | src/app/api/webhooks/stripe/route.ts:71-100 | the update sets `isPaid`, appends exactly the one new shipping and one new billing address row, and keeps id, user, creation time and products |
| StripeWebhook.Post | src/app/api/webhooks/stripe/route.ts:20-146 | 400 iff the signature header is absent or empty; only a 200 or email-failure answer follows a change to the table; a mail is attempted iff the order was updated; the update touches only the named existing order, which becomes paid with one more address row of each kind |
| StripeWebhook.MissingSignatureRejected | src/app/api/webhooks/stripe/route.ts:29-31 | without a signature header the answer is 400, the table is unchanged and no mail is sent |
| StripeWebhook.ForgedSignatureIsServerError | src/app/api/webhooks/stripe/route.ts:38-42 | a signature the provider's check rejects gives 500 with no change and no mail |
| StripeWebhook.OnlyAuthenticRequestsMutate | src/app/api/webhooks/stripe/route.ts:29-45 | any change to the table implies a present signature, a verified event and a completed-session event type |
| StripeWebhook.OtherEventsIgnored | src/app/api/webhooks/stripe/route.ts:45-134 | any other event type gets `ok: true` with the event echoed, no change and no mail |
| StripeWebhook.MissingEmailCheckedFirst | src/app/api/webhooks/stripe/route.ts:47-64 | a completed session without a customer email fails with the missing-email error, whatever its metadata, and changes nothing |
| StripeWebhook.MissingMetadataRejected | src/app/api/webhooks/stripe/route.ts:56-64 | with the email present, a missing or empty `userId` or `orderId` fails with the metadata error and changes nothing |
| StripeWebhook.CompletedSessionMarksOrderPaid | src/app/api/webhooks/stripe/route.ts:66-124 | on success the `orderId` order becomes paid and gains the shipping address (from shipping details) and billing address (from customer details), both under the customer's name; its other fields and every other order stay the same; the mail carries the order id, goes to the customer's email, and holds the order's creation time, the customer's name and the full shipping address |
| StripeWebhook.PostKeepsPaidIffAddressed | src/app/api/webhooks/stripe/route.ts:71-100 | if every order has address rows of both kinds exactly when it is paid, that still holds after any request, and no paid order becomes unpaid |
| StripeWebhook.EmailFailureKeepsPayment | src/app/api/webhooks/stripe/route.ts:102-130 | a throwing mail request changes the answer to 500 but leaves the same updated table as a successful one |
| StripeWebhook.UserIdDoesNotSelectOrder | src/app/api/webhooks/stripe/route.ts:56-75 | changing the (present) `userId` metadata changes neither the table, the mail nor the status: only `orderId` selects the order |
| StripeWebhook.RedeliveryIsNotIdempotent | src/app/api/webhooks/stripe/route.ts:71-100 | delivering the same completed event twice leaves the order paid with two more address rows of each kind and a second mail |
| NavItems.Step | src/components/Nav/NavItems.tsx:14-50 | `handleOpen(i)` opens `i` iff it was not open, closing any other; close, Escape and a click outside close all; other keys and clicks inside change nothing |
| NavItems.IsOpen | src/components/Nav/NavItems.tsx:47 | an item is open exactly when the active index is that item, so nothing is open when the index is null |
| NavItems.IsAnyOpen | src/components/Nav/NavItems.tsx:28 | `isAnyOpen` holds exactly when the active index is not null, and then the item it names is open |
| NavItems.AtMostOneOpen | src/components/Nav/NavItems.tsx:47 | two open items are the same item |
| NavItems.AnyOpenIffSomeOpen | src/components/Nav/NavItems.tsx:28-47 | `isAnyOpen` holds iff some item's `isOpen` holds |
| NavItems.DoubleToggle | src/components/Nav/NavItems.tsx:39-45 | toggling the same item twice closes everything, unless that item was open, in which case the state is unchanged |
| NavItems.InitiallyClosed | src/components/Nav/NavItems.tsx:10 | initially no item is open |
| NavItems.OpenIndexStaysInRange | src/components/Nav/NavItems.tsx:37-45 | if every click is on one of the categories, the open index always names a category |
| ImageSlider.Init | src/components/Product/ImageSlider.tsx:16-21 | the slider starts at index 0 at the beginning, and at the end iff there is exactly one URL |
| ImageSlider.OnSlideChange | src/components/Product/ImageSlider.tsx:25-31 | after moving to slide k, `isBeginning` iff k = 0 and `isEnd` iff k = length - 1 |
| ImageSlider.Slides | src/components/Product/ImageSlider.tsx:101-111 | there is one slide per URL, in URL order, keyed by position |
| ImageSlider.InitIsFirstSlide | src/components/Product/ImageSlider.tsx:16-31 | the initial state equals the state after a move to slide 0 |
| ImageSlider.NextActive | src/components/Product/ImageSlider.tsx:60-64 | the next button takes its active styling exactly when the slider is not at the end |
| ImageSlider.PrevActive | src/components/Product/ImageSlider.tsx:76-80 | the previous button takes its active styling exactly when the slider is not at the beginning |
| ImageSlider.ButtonsFollowNeighbours | src/components/Product/ImageSlider.tsx:54-80 | on a real slide, next is active iff a later slide exists and previous is active iff an earlier one does |
| ImageSlider.SingleImageHidesButtons | src/components/Product/ImageSlider.tsx:16-80 | with one URL, both buttons are inactive |
| ImageSlider.NoImagesKeepsNextActive | src/components/Product/ImageSlider.tsx:20 | with no URLs, `isEnd` starts false, so the next button is styled active |
| Navbar.IsAdmin | src/components/Nav/Navbar.tsx:24 | a signed-in user is the admin iff the configured admin email equals theirs; with no user, the check holds exactly when no admin email is configured (`undefined === undefined`) |
| Navbar.Render | src/components/Nav/Navbar.tsx:24-226 | the cart always shows; visitors get the sign-in links; signed-in users get a dropdown with their email and a sign-out entry; the seller dashboard appears iff the user is an approved seller or the admin; the admin dashboard appears iff the user is the admin |
| Navbar.VisitorSeesNoDashboard | src/components/Nav/Navbar.tsx:195-221 | a visitor sees only Sign in and Create account, and no dashboard, even when the admin check is vacuously true because both emails are undefined |
| Navbar.PrivilegedMenuLabel | src/components/Nav/Navbar.tsx:53-65 | the privileged menu is labelled "Admin Menu" iff the user's email is the admin email, else "Seller Menu" |
| Navbar.OtherUsersGetAccountMenu | src/components/Nav/Navbar.tsx:136-193 | any other signed-in user gets "My account" with a Start selling link to `/become-seller?email=<email>` and no dashboard |
| SiteMetadata.ConstructMetadata | src/lib/utils.ts:40-80 | omitted arguments take the defaults; open-graph and twitter repeat the title and description and carry the image; twitter uses the large-image card and a fixed creator; icons pass through; the base URL is constant; robots (index and follow both false) are present iff `noIndex` |
| SiteMetadata.DefaultMetadata | src/lib/utils.ts:40-52 | called without arguments, every field takes its default and there are no robots directives |
| SiteMetadata.PreviewsMatchPage | src/lib/utils.ts:57-69 | both social previews repeat the page title, the description and the same image |

## Left out

- The checkout-session creator (`src/app/(root)/cart/action.ts`) and the
  order-status poller (`src/app/(root)/thank-you`) are not part of this model.
- Signature computation in `constructEvent` and the payment client are not
  modelled. Verification is an input: `Authentic(event)` or `Forged`.
- Mail delivery and rendering are not modelled. The `/api/send` endpoint is
  reduced to the request body the handler builds and a flag saying whether
  `fetch` throws. The response message texts (which embed `${err}`) and
  console logging are not modelled.
- The date is not formatted: the mail's `orderDate` is the order's raw
  `createdAt` timestamp, not its locale-formatted string.
- The database schema is not part of this model. Two assumptions follow:
  - The address columns other than `state` are required, so a null value
    there rejects the write and nothing changes.
  - Address relations are a list of the rows created for the order. How many
    addresses an order may have is not modelled.
- StripeWebhook.Post: a missing order id is answered with 500 and no change,
  which is what the database client's update-on-missing-row error produces.
  Other database errors (connection loss, constraint violations) are not
  modelled.
- ProductData.GetProducts: Prisma leaves the row order unspecified when no
  sort is given; the model fixes it as storage order. Rows with equal
  `createdAt` keep storage order. A negative limit follows the database
  client's negative-take semantics: the last rows of the ordering. Non-integer
  limits are not modelled.
- Prices are exact reals. JavaScript floating-point rounding, the
  Decimal-to-Number conversion (modelled as the identity), `formatPrice` and
  `cn` are not modelled.
- Type-level validation failures are not modelled: the forms' fields are
  already strings, so zod's "expected string" issues cannot arise. Only the
  order of issues within one field group is significant; zod's ordering
  across nested paths is not claimed.
- Cart persistence to local storage and React hydration are not modelled;
  mounting is a boolean input to the sheet.
- The DOM event listeners are abstracted: a key press carries its key, and a
  mouse or touch press says whether it was inside the menu.
- The slider library is not modelled: it only reports the index it moved to,
  and its clamping and animation are not part of the model.
- Presentational components with no rules are not modelled: layout, footer,
  hero section, cart item, product listing and its timers, and the single
  nav item.
- Concurrent or at-least-once webhook delivery is not modelled; only
  sequential repeated calls are.

## Findings

| source | as written | input that shows it | evidently intended | confidence | as-written member | corrected member |
|---|---|---|---|---|---|---|
| src/app/api/webhooks/stripe/route.ts:71-100 | every delivery of a completed event creates another shipping and billing address row and sends another mail; nothing checks whether the order is already paid | the same signed `checkout.session.completed` event delivered twice for an existing order | the provider delivers at least once, so a redelivery for an already-paid order should change nothing and send no second mail | medium, not executed | StripeWebhook.RedeliveryIsNotIdempotent | StripeWebhook.GuardedRedeliveryIsIdempotent |

=== FILE: cart_store.dfy ===
/**
 The client-side cart store: a list of cart items with three transitions,
 `addItem` (append), `removeItem` (drop every item of a product id) and
 `clearCart`. Persistence to local storage is not part of the model.
 */
module CartStore {
  import opened Types

  datatype CartItem = CartItem(product: Product)

  type Cart = seq<CartItem>

  /** The cart a fresh store starts with. */
  const Empty: Cart := []

  /** A fresh cart holds nothing: removing from it changes nothing, and a first add yields a single item. */
  lemma EmptyCart(id: string, product: Product)
    ensures |Empty| == 0
    ensures RemoveItem(Empty, id) == Empty
    ensures AddItem(Empty, product) == [CartItem(product)]
  {
  }

  /** `addItem(product)`: appends one item; the same product may be added repeatedly. */
  function AddItem(cart: Cart, product: Product): (r: Cart)
    ensures |r| == |cart| + 1
    ensures r[..|cart|] == cart && r[|cart|] == CartItem(product)
  {
    cart + [CartItem(product)]
  }

  /** `removeItem(id)`: keeps the items whose product id differs from `id`, in order. */
  function RemoveItem(cart: Cart, id: string): (r: Cart)
    ensures forall item :: item in r ==> item in cart && item.product.id != id
    ensures forall item :: item in cart && item.product.id != id ==> item in r
    ensures |r| <= |cart|
  {
    if cart == [] then []
    else if cart[0].product.id == id then RemoveItem(cart[1..], id)
    else [cart[0]] + RemoveItem(cart[1..], id)
  }

  /** `clearCart()`: every state goes to the empty cart. */
  function ClearCart(cart: Cart): (r: Cart)
    ensures |r| == 0
  {
    Empty
  }

  /** The store's actions, for reasoning about sequences of them. */
  datatype Action = Add(product: Product) | Remove(id: string) | Clear

  function Apply(cart: Cart, action: Action): Cart {
    match action
    case Add(p) => AddItem(cart, p)
    case Remove(id) => RemoveItem(cart, id)
    case Clear => ClearCart(cart)
  }

  function ApplyAll(cart: Cart, actions: seq<Action>): Cart
    decreases |actions|
  {
    if actions == [] then cart else ApplyAll(Apply(cart, actions[0]), actions[1..])
  }

  // ----- laws of removeItem -----

  /** Removal works item by item: it distributes over concatenation, so relative order is kept. */
  lemma {:induction false} RemoveItemDistributes(a: Cart, b: Cart, id: string)
    ensures RemoveItem(a + b, id) == RemoveItem(a, id) + RemoveItem(b, id)
  {
    if a == [] {
      assert a + b == b;
    } else {
      assert (a + b)[0] == a[0];
      assert (a + b)[1..] == a[1..] + b;
      RemoveItemDistributes(a[1..], b, id);
    }
  }

  /** Every item of another product keeps its multiplicity; items of `id` are all gone. */
  lemma {:induction false} RemoveItemCounts(cart: Cart, id: string, item: CartItem)
    ensures multiset(RemoveItem(cart, id))[item] ==
              if item.product.id == id then 0 else multiset(cart)[item]
  {
    if cart != [] {
      assert cart == [cart[0]] + cart[1..];
      RemoveItemCounts(cart[1..], id, item);
    }
  }

  /** Removing an id no item carries leaves the cart unchanged. */
  lemma {:induction false} RemoveAbsentIsIdentity(cart: Cart, id: string)
    requires forall item :: item in cart ==> item.product.id != id
    ensures RemoveItem(cart, id) == cart
  {
    if cart != [] {
      assert forall item :: item in cart[1..] ==> item in cart;
      RemoveAbsentIsIdentity(cart[1..], id);
      assert cart == [cart[0]] + cart[1..];
    }
  }

  lemma RemoveItemIdempotent(cart: Cart, id: string)
    ensures RemoveItem(RemoveItem(cart, id), id) == RemoveItem(cart, id)
  {
    RemoveAbsentIsIdentity(RemoveItem(cart, id), id);
  }

  /** Removing a product just added also removes every earlier copy of it. */
  lemma RemoveAfterAdd(cart: Cart, product: Product)
    ensures RemoveItem(AddItem(cart, product), product.id) == RemoveItem(cart, product.id)
  {
    RemoveItemDistributes(cart, [CartItem(product)], product.id);
  }

  /** Adding a product and removing another id commute. */
  lemma AddRemoveCommute(cart: Cart, product: Product, id: string)
    requires product.id != id
    ensures RemoveItem(AddItem(cart, product), id) == AddItem(RemoveItem(cart, id), product)
  {
    RemoveItemDistributes(cart, [CartItem(product)], id);
  }

  /** Two removals can be done in either order. */
  lemma {:induction false} RemovalsCommute(cart: Cart, a: string, b: string)
    ensures RemoveItem(RemoveItem(cart, a), b) == RemoveItem(RemoveItem(cart, b), a)
  {
    if cart != [] {
      RemovalsCommute(cart[1..], a, b);
      var x := cart[0];
      var ra := RemoveItem(cart[1..], a);
      var rb := RemoveItem(cart[1..], b);
      if x.product.id != a {
        RemoveItemDistributes([x], ra, b);
      }
      if x.product.id != b {
        RemoveItemDistributes([x], rb, a);
      }
    }
  }

  /** Whatever came before, clearing ends in the empty cart, and the store starts empty. */
  lemma ClearAfterAnything(cart: Cart, actions: seq<Action>)
    ensures ApplyAll(cart, actions + [Clear]) == Empty
  {
    ApplyAllAppend(cart, actions, [Clear]);
  }

  lemma {:induction false} ApplyAllAppend(cart: Cart, xs: seq<Action>, ys: seq<Action>)
    ensures ApplyAll(cart, xs + ys) == ApplyAll(ApplyAll(cart, xs), ys)
    decreases |xs|
  {
    if xs != [] {
      assert (xs + ys)[0] == xs[0];
      assert (xs + ys)[1..] == xs[1..] + ys;
      ApplyAllAppend(Apply(cart, xs[0]), xs[1..], ys);
    } else {
      assert xs + ys == ys;
    }
  }

  /** Only `addItem` puts items in the cart: each item was there before or was added by an action. */
  lemma {:induction false} ItemsComeFromAdds(cart: Cart, actions: seq<Action>, item: CartItem)
    requires item in ApplyAll(cart, actions)
    ensures item in cart || Add(item.product) in actions
    decreases |actions|
  {
    if actions != [] {
      var next := Apply(cart, actions[0]);
      ItemsComeFromAdds(next, actions[1..], item);
      if item in next && item !in cart {
        var p := actions[0].product;
        assert item in cart + [CartItem(p)];
        assert item == CartItem(p);
      } else if item !in next {
        var i :| 0 <= i < |actions[1..]| && actions[1..][i] == Add(item.product);
        assert actions[i + 1] == Add(item.product);
      }
    }
  }
}

=== FILE: cart_view.dfy ===
/**
 The cart sheet: the item-count badge in the navbar, and the sheet that
 shows either the empty-cart state or the item list with the checkout
 summary (shipping, a fixed transaction fee, and the total).
 */
module CartView {
  import opened Types
  import opened CartStore

  /** The fixed transaction fee added to every checkout. */
  const Fee: real := 1.0

  /** The sum of the prices of the items, as a reference definition. */
  function Sum(items: Cart): real {
    if items == [] then 0.0 else items[0].product.price + Sum(items[1..])
  }

  /** `items.reduce((total, {product}) => total + product.price, acc)`, folding from the left. */
  function Reduce(items: Cart, acc: real): (total: real)
    ensures total == acc + Sum(items)
  {
    if items == [] then acc else Reduce(items[1..], acc + items[0].product.price)
  }

  /** `cartTotal`: the left fold started at 0, which is the sum of the prices. */
  function CartTotal(items: Cart): (total: real)
    ensures total == Sum(items)
    ensures items == [] ==> total == 0.0
  {
    Reduce(items, 0.0)
  }

  /** The total is additive over concatenation of item lists. */
  lemma {:induction false} SumAppend(a: Cart, b: Cart)
    ensures Sum(a + b) == Sum(a) + Sum(b)
  {
    if a != [] {
      assert (a + b)[0] == a[0];
      assert (a + b)[1..] == a[1..] + b;
      SumAppend(a[1..], b);
    } else {
      assert a + b == b;
    }
  }

  /** Adding a product raises the total by its price. */
  lemma TotalAfterAdd(cart: Cart, product: Product)
    ensures CartTotal(AddItem(cart, product)) == CartTotal(cart) + product.price
  {
    SumAppend(cart, [CartItem(product)]);
  }

  /** Removing a product's items lowers the total by exactly their prices. */
  lemma {:induction false} TotalAfterRemove(cart: Cart, id: string)
    ensures CartTotal(RemoveItem(cart, id)) == CartTotal(cart) - CartTotal(OfProduct(cart, id))
  {
    if cart != [] {
      TotalAfterRemove(cart[1..], id);
      if cart[0].product.id != id {
        SumAppend([cart[0]], RemoveItem(cart[1..], id));
      } else {
        SumAppend([cart[0]], OfProduct(cart[1..], id));
      }
    }
  }

  /** The items of one product (a helper for stating what `removeItem` subtracts). */
  function OfProduct(cart: Cart, id: string): Cart {
    if cart == [] then []
    else if cart[0].product.id == id then [cart[0]] + OfProduct(cart[1..], id)
    else OfProduct(cart[1..], id)
  }

  // ----- what the sheet shows -----

  datatype Content =
    | EmptyState
    | Summary(products: seq<Product>, fee: real, total: real)

  datatype Sheet = Sheet(badge: nat, content: Content)

  /**
   The rendered cart. Before the component has mounted the badge shows 0,
   because the stored cart is only readable on the client.
   */
  function Render(items: Cart, mounted: bool): (view: Sheet)
    ensures view.badge == if mounted then |items| else 0
    ensures view.content.Summary? <==> |items| > 0
    ensures view.content.Summary? ==>
              && |view.content.products| == |items|
              && (forall i :: 0 <= i < |items| ==> view.content.products[i] == items[i].product)
              && view.content.fee == Fee
              && view.content.total == Sum(items) + Fee
  {
    var itemCount := |items|;
    Sheet(
      if mounted then itemCount else 0,
      if itemCount > 0
      then Summary(seq(itemCount, i requires 0 <= i < itemCount => items[i].product), Fee, CartTotal(items) + Fee)
      else EmptyState)
  }

  /** The total including the fee; an empty cart would show just the fee. */
  function DisplayedTotal(items: Cart): (total: real)
    ensures total == Sum(items) + Fee
    ensures items == [] ==> total == Fee
  {
    CartTotal(items) + Fee
  }

  /** After adding a product the sheet shows the summary, with the total raised by its price. */
  lemma SheetAfterAdd(cart: Cart, product: Product, mounted: bool)
    ensures var view := Render(AddItem(cart, product), mounted);
            && view.content.Summary?
            && view.content.total == DisplayedTotal(cart) + product.price
            && (mounted ==> view.badge == |cart| + 1)
  {
    TotalAfterAdd(cart, product);
  }

  /** Clearing the cart always brings back the empty state and a zero badge. */
  lemma SheetAfterClear(cart: Cart, mounted: bool)
    ensures Render(ClearCart(cart), mounted) == Sheet(0, EmptyState)
  {
  }
}

=== FILE: image_slider.dfy ===
/**
 The product image slider: one slide per image URL, and previous/next buttons
 that are hidden on the first and last slide. The slider library reports the
 index it moved to; the component derives `isBeginning` and `isEnd` from it.
 */
module ImageSlider {

  datatype SlideConfig = SlideConfig(isBeginning: bool, isEnd: bool)

  datatype SliderState = SliderState(activeIndex: int, config: SlideConfig)

  /** The state before any slide change: index 0, at the beginning, at the end iff there is one image. */
  function Init(urls: seq<string>): (s: SliderState)
    ensures s.activeIndex == 0 && s.config.isBeginning
    ensures s.config.isEnd <==> |urls| == 1
  {
    SliderState(0, SlideConfig(true, 0 == |urls| - 1))
  }

  /** `onSlideChange(k)`: the slider moved to slide `k`. */
  function OnSlideChange(urls: seq<string>, k: int): (s: SliderState)
    ensures s.activeIndex == k
    ensures s.config.isBeginning <==> k == 0
    ensures s.config.isEnd <==> k == |urls| - 1
  {
    SliderState(k, SlideConfig(k == 0, k == |urls| - 1))
  }

  /** The next button has its active styling unless the slider is at the end. */
  predicate NextActive(s: SliderState): (b: bool)
    ensures b <==> !s.config.isEnd
  {
    !s.config.isEnd
  }

  /** The previous button has its active styling unless the slider is at the beginning. */
  predicate PrevActive(s: SliderState): (b: bool)
    ensures b <==> !s.config.isBeginning
  {
    !s.config.isBeginning
  }

  datatype Slide = Slide(key: nat, url: string)

  /** One slide per URL, in URL order, keyed by its position. */
  function Slides(urls: seq<string>): (r: seq<Slide>)
    ensures |r| == |urls|
    ensures forall i :: 0 <= i < |r| ==> r[i].key == i && r[i].url == urls[i]
  {
    seq(|urls|, i requires 0 <= i < |urls| => Slide(i, urls[i]))
  }

  /** The initial state is the state a change to slide 0 produces. */
  lemma InitIsFirstSlide(urls: seq<string>)
    ensures Init(urls) == OnSlideChange(urls, 0)
  {
  }

  /** On a real slide, each button is active exactly when there is a slide in its direction. */
  lemma ButtonsFollowNeighbours(urls: seq<string>, k: int)
    requires 0 <= k < |urls|
    ensures NextActive(OnSlideChange(urls, k)) <==> k + 1 < |urls|
    ensures PrevActive(OnSlideChange(urls, k)) <==> k > 0
  {
  }

  /** With a single image both buttons are inactive. */
  lemma SingleImageHidesButtons(urls: seq<string>)
    requires |urls| == 1
    ensures !NextActive(Init(urls)) && !PrevActive(Init(urls))
  {
  }

  /** With no images the next button stays active, since index 0 is not `length - 1`. */
  lemma NoImagesKeepsNextActive()
    ensures NextActive(Init([])) && !PrevActive(Init([]))
  {
  }
}

=== FILE: nav_items.dfy ===
/**
 The navbar's category menu: at most one category's dropdown is open at a
 time, tracked as an optional index. Clicking a category toggles it, its
 close handler, the Escape key and a click outside the menu close it.
 */
module NavItems {
  import opened Types

  /** `activeIndex`: the open category, or none. */
  datatype MenuState = MenuState(activeIndex: Option<nat>)

  const Initial := MenuState(None)

  datatype MenuEvent =
    | HandleOpen(index: nat)
    | Close
    | KeyDown(key: string)
    | MouseDown(insideMenu: bool)

  /** `isOpen` of the item at `index`. */
  predicate IsOpen(s: MenuState, index: nat): (b: bool)
    ensures b ==> s.activeIndex.Some? && s.activeIndex.value == index
    ensures s.activeIndex == Some(index) ==> b
    ensures s.activeIndex.None? ==> !b
  {
    s.activeIndex == Some(index)
  }

  /** `isAnyOpen`. */
  predicate IsAnyOpen(s: MenuState): (b: bool)
    ensures s.activeIndex.Some? ==> b && IsOpen(s, s.activeIndex.value)
    ensures s.activeIndex.None? ==> !b
  {
    s.activeIndex != None
  }

  /**
   One event. `HandleOpen(i)` toggles item `i`; a mouse or touch press
   outside the menu and the Escape key close it; other keys and presses
   inside the menu change nothing.
   */
  function Step(s: MenuState, e: MenuEvent): (s': MenuState)
    ensures e.HandleOpen? ==> (IsOpen(s', e.index) <==> !IsOpen(s, e.index))
    ensures e.HandleOpen? ==> (IsAnyOpen(s') <==> !IsOpen(s, e.index))
    ensures e.Close? || e == KeyDown("Escape") || e == MouseDown(false) ==> !IsAnyOpen(s')
    ensures (e.KeyDown? && e.key != "Escape") || e == MouseDown(true) ==> s' == s
  {
    match e
    case HandleOpen(i) => if s.activeIndex == Some(i) then MenuState(None) else MenuState(Some(i))
    case Close => MenuState(None)
    case KeyDown(key) => if key == "Escape" then MenuState(None) else s
    case MouseDown(inside) => if inside then s else MenuState(None)
  }

  function Run(s: MenuState, events: seq<MenuEvent>): MenuState
    decreases |events|
  {
    if events == [] then s else Run(Step(s, events[0]), events[1..])
  }

  /** At most one item is open at a time. */
  lemma AtMostOneOpen(s: MenuState, i: nat, j: nat)
    requires IsOpen(s, i) && IsOpen(s, j)
    ensures i == j
  {
  }

  /** `isAnyOpen` holds exactly when some item is open. */
  lemma AnyOpenIffSomeOpen(s: MenuState)
    ensures IsAnyOpen(s) <==> exists i: nat :: IsOpen(s, i)
  {
    if IsAnyOpen(s) {
      assert IsOpen(s, s.activeIndex.value);
    }
  }

  /**
   Clicking the same item twice leaves nothing open, except when that item
   was open to begin with: then it closes and opens again.
   */
  lemma DoubleToggle(s: MenuState, i: nat)
    ensures Step(Step(s, HandleOpen(i)), HandleOpen(i)) == if IsOpen(s, i) then s else Initial
  {
  }

  /** Initially nothing is open. */
  lemma InitiallyClosed(i: nat)
    ensures !IsOpen(Initial, i) && !IsAnyOpen(Initial)
  {
  }

  /** When every clicked item is one of the `count` categories, the open index always names one of them. */
  lemma {:induction false} OpenIndexStaysInRange(s: MenuState, events: seq<MenuEvent>, count: nat)
    requires s.activeIndex.Some? ==> s.activeIndex.value < count
    requires forall k :: 0 <= k < |events| && events[k].HandleOpen? ==> events[k].index < count
    ensures var t := Run(s, events); t.activeIndex.Some? ==> t.activeIndex.value < count
    decreases |events|
  {
    if events != [] {
      OpenIndexStaysInRange(Step(s, events[0]), events[1..], count);
    }
  }
}

=== FILE: navbar.dfy ===
/**
 The right-hand side of the navbar, as a function of the signed-in user and
 the configured admin email: sign-in links for visitors, an admin or seller
 menu for approved sellers and the admin, and an account menu for everyone
 else. The cart button is shown in every case.
 */
module Navbar {
  import opened Types

  /** The signed-in user's row: email and seller-request status (null until requested). */
  datatype User = User(email: string, seller: Option<Status>)

  /** `user?.email`. */
  function EmailOf(user: Option<User>): Option<string> {
    match user
    case None => None
    case Some(u) => Some(u.email)
  }

  /**
   `user?.email === process.env.ADMIN_EMAIL`. Strict equality of two
   optional values: with no user and no configured admin email both sides
   are undefined and the comparison is true.
   */
  predicate IsAdmin(user: Option<User>, adminEmail: Option<string>): (b: bool)
    ensures user.None? ==> (b <==> adminEmail.None?)
    ensures user.Some? ==> (b <==> adminEmail == Some(user.value.email))
  {
    EmailOf(user) == adminEmail
  }

  datatype Entry = Link(text: string, href: string) | SignOut

  datatype Menu =
    | SignedOut(links: seq<Entry>)
    | Dropdown(title: string, email: string, entries: seq<Entry>)

  datatype NavbarView = NavbarView(menu: Menu, showsCart: bool)

  const SellerDashboard := Link("Seller Dashboard", "/dashboard/seller")
  const AdminDashboard := Link("Admin Dashboard", "/dashboard/admin")

  /** Whether the menu offers `entry`. */
  predicate Offers(m: Menu, entry: Entry) {
    match m
    case SignedOut(links) => entry in links
    case Dropdown(_, _, entries) => entry in entries
  }

  /** A dashboard link of either kind appears in the menu. */
  predicate OffersDashboard(m: Menu) {
    Offers(m, SellerDashboard) || Offers(m, AdminDashboard)
  }

  function Render(user: Option<User>, adminEmail: Option<string>): (v: NavbarView)
    ensures v.showsCart
    ensures user.None? <==> v.menu.SignedOut?
    ensures user.Some? ==> v.menu.email == user.value.email && Offers(v.menu, SignOut)
    ensures Offers(v.menu, SellerDashboard) <==>
              user.Some? && (user.value.seller == Some(Approved) || IsAdmin(user, adminEmail))
    ensures Offers(v.menu, AdminDashboard) <==> user.Some? && IsAdmin(user, adminEmail)
  {
    var isAdmin := IsAdmin(user, adminEmail);
    var menu :=
      match user
      case None =>
        SignedOut([Link("Sign in", "/sign-in"), Link("Create account", "/sign-up")])
      case Some(u) =>
        if u.seller == Some(Approved) || isAdmin then
          Dropdown(
            if isAdmin then "Admin Menu" else "Seller Menu",
            u.email,
            (if isAdmin then [AdminDashboard] else []) + [SellerDashboard, SignOut])
        else
          Dropdown("My account", u.email, [Link("Start selling", "/become-seller?email=" + u.email), SignOut]);
    NavbarView(menu, true)
  }

  /** A visitor sees only the sign-in and sign-up links, even when the admin check is vacuously true. */
  lemma VisitorSeesNoDashboard(adminEmail: Option<string>)
    ensures Render(None, adminEmail).menu
              == SignedOut([Link("Sign in", "/sign-in"), Link("Create account", "/sign-up")])
    ensures !OffersDashboard(Render(None, adminEmail).menu)
    ensures adminEmail.None? ==> IsAdmin(None, adminEmail)
  {
  }

  /** The dropdown is labelled "Admin Menu" for the admin, "Seller Menu" for other approved sellers. */
  lemma PrivilegedMenuLabel(u: User, adminEmail: Option<string>)
    requires u.seller == Some(Approved) || IsAdmin(Some(u), adminEmail)
    ensures Render(Some(u), adminEmail).menu.title ==
              if Some(u.email) == adminEmail then "Admin Menu" else "Seller Menu"
  {
  }

  /** Everyone else signed in gets "My account" with a link to request seller status. */
  lemma OtherUsersGetAccountMenu(u: User, adminEmail: Option<string>)
    requires u.seller != Some(Approved) && Some(u.email) != adminEmail
    ensures var m := Render(Some(u), adminEmail).menu;
            && m.title == "My account"
            && Offers(m, Link("Start selling", "/become-seller?email=" + u.email))
            && !OffersDashboard(m)
  {
  }
}

=== FILE: product_data.dfy ===
/**
 The product queries of the data layer: `getProducts`, which lists approved
 products of an optional category, newest or oldest first, limited to
 `query.limit || 4` rows, and `getProductById`, which looks one row up by id
 and status. The product table is an in-memory sequence in storage order.
 */
module ProductData {
  import opened Types
  import opened Schemas

  // ----- ordering by creation time -----

  /** `a` may come before `b` in an ordering on `createdAt` in direction `dir`. */
  predicate InOrder(a: Product, b: Product, dir: SortOrder) {
    match dir
    case Asc => a.createdAt <= b.createdAt
    case Desc => a.createdAt >= b.createdAt
  }

  predicate SortedBy(s: seq<Product>, dir: SortOrder) {
    forall i, j :: 0 <= i < j < |s| ==> InOrder(s[i], s[j], dir)
  }

  /** An element that may precede `p` and every row of `t` may precede every row of a permutation of `t + [p]`. */
  lemma PrecedesPermutation(x: Product, p: Product, t: seq<Product>, r: seq<Product>, dir: SortOrder)
    requires InOrder(x, p, dir)
    requires forall k :: 0 <= k < |t| ==> InOrder(x, t[k], dir)
    requires multiset(r) == multiset(t) + multiset{p}
    ensures forall j :: 0 <= j < |r| ==> InOrder(x, r[j], dir)
  {
    forall j | 0 <= j < |r| ensures InOrder(x, r[j], dir) {
      assert r[j] in multiset(r);
      if r[j] != p {
        assert r[j] in t;
      }
    }
  }

  function Insert(p: Product, s: seq<Product>, dir: SortOrder): (r: seq<Product>)
    requires SortedBy(s, dir)
    ensures SortedBy(r, dir)
    ensures multiset(r) == multiset(s) + multiset{p}
  {
    if s == [] then [p]
    else if InOrder(p, s[0], dir) then [p] + s
    else
      var rest := Insert(p, s[1..], dir);
      assert s == [s[0]] + s[1..];
      PrecedesPermutation(s[0], p, s[1..], rest, dir);
      var r := [s[0]] + rest;
      forall i, j | 0 <= i < j < |r| ensures InOrder(r[i], r[j], dir) {
        assert r[j] == rest[j - 1];
        if i > 0 {
          assert r[i] == rest[i - 1];
        }
      }
      r
  }

  /** The rows ordered by `createdAt` in direction `dir`; rows with equal times keep storage order. */
  function SortByCreatedAt(s: seq<Product>, dir: SortOrder): (r: seq<Product>)
    ensures SortedBy(r, dir)
    ensures multiset(r) == multiset(s)
  {
    if s == [] then []
    else
      assert s == [s[0]] + s[1..];
      Insert(s[0], SortByCreatedAt(s[1..], dir), dir)
  }

  // ----- getProducts -----

  /** The `where` clause: approved rows, of the given category when one is given. */
  predicate Matches(p: Product, category: Option<Category>) {
    p.status == Approved && (category.Some? ==> p.category == category.value)
  }

  /** The rows the `where` clause selects, in storage order. */
  function Matching(store: seq<Product>, category: Option<Category>): (r: seq<Product>)
    ensures forall p :: p in r <==> p in store && Matches(p, category)
    ensures forall p :: multiset(r)[p] == if Matches(p, category) then multiset(store)[p] else 0
    ensures |r| <= |store|
  {
    if store == [] then []
    else
      assert store == [store[0]] + store[1..];
      if Matches(store[0], category) then [store[0]] + Matching(store[1..], category)
      else Matching(store[1..], category)
  }

  /** `take: query.limit || 4`: an absent or zero limit means four rows. */
  function Take(limit: Option<int>): (n: int)
    ensures n != 0
    ensures limit.None? || limit == Some(0) ==> n == 4
    ensures limit.Some? && limit.value != 0 ==> n == limit.value
  {
    if limit.None? || limit.value == 0 then 4 else limit.value
  }

  function Min(a: int, b: int): int {
    if a <= b then a else b
  }

  function Abs(n: int): nat {
    if n < 0 then -n else n
  }

  /** A slice holds no row more often than the whole sequence does. */
  lemma SliceIsSubMultiset(s: seq<Product>, lo: nat, hi: nat)
    requires lo <= hi <= |s|
    ensures multiset(s[lo..hi]) <= multiset(s)
  {
    assert s == s[..lo] + s[lo..hi] + s[hi..];
  }

  /**
   A `take` of `n` rows: the first `n` when positive, the last `-n` when
   negative, as the database client defines a negative take.
   */
  function TakeRows(s: seq<Product>, n: int): (r: seq<Product>)
    ensures |r| == Min(Abs(n), |s|)
    ensures n >= 0 ==> r == s[..|r|]
    ensures n < 0 ==> r == s[|s| - |r|..]
    ensures forall p :: p in r ==> p in s
    ensures multiset(r) <= multiset(s)
    ensures forall dir :: SortedBy(s, dir) ==> SortedBy(r, dir)
  {
    var lo := if n >= 0 then 0 else |s| - Min(-n, |s|);
    var r := s[lo..lo + Min(Abs(n), |s|)];
    SliceIsSubMultiset(s, lo, lo + |r|);
    forall dir | SortedBy(s, dir) ensures SortedBy(r, dir) {
      forall i, j | 0 <= i < j < |r| ensures InOrder(r[i], r[j], dir) {
        assert r[i] == s[lo + i] && r[j] == s[lo + j];
      }
    }
    r
  }

  /** The matching rows in the order they come back before the `take`. */
  function Ordered(store: seq<Product>, query: Query): (rows: seq<Product>)
    ensures multiset(rows) == multiset(Matching(store, query.category))
    ensures |rows| == |Matching(store, query.category)|
    ensures forall p :: p in rows <==> p in store && Matches(p, query.category)
    ensures query.sort.Some? ==> SortedBy(rows, query.sort.value)
  {
    var m := Matching(store, query.category);
    var rows := match query.sort
      case None => m
      case Some(dir) => SortByCreatedAt(m, dir);
    assert |multiset(rows)| == |multiset(m)|;
    assert forall p :: p in rows <==> p in multiset(m);
    rows
  }

  /**
   `getProducts(query)`. Without a sort the database returns rows in an
   unspecified order, which the model fixes as storage order. The price
   conversion to a number is the identity on exact prices.
   */
  function GetProducts(store: seq<Product>, query: Query): (r: seq<Product>)
    ensures forall p :: p in r ==> p in store && p.status == Approved
    ensures query.category.Some? ==> forall p :: p in r ==> p.category == query.category.value
    ensures |r| == Min(Abs(Take(query.limit)), |Matching(store, query.category)|)
    ensures query.sort.Some? ==> SortedBy(r, query.sort.value)
    ensures multiset(r) <= multiset(Matching(store, query.category))
  {
    TakeRows(Ordered(store, query), Take(query.limit))
  }

  /**
   With a sort and a positive limit the result is the top of the ordering:
   the matching rows split into those returned and the rest, and every row
   returned comes no later than every row left out.
   */
  lemma {:induction false} GetProductsIsTopOfOrdering(store: seq<Product>, query: Query)
    requires query.sort.Some? && Take(query.limit) > 0
    ensures var r := GetProducts(store, query);
            var rest := LeftOut(store, query);
            && multiset(r) + multiset(rest) == multiset(Matching(store, query.category))
            && forall i, j :: 0 <= i < |r| && 0 <= j < |rest| ==> InOrder(r[i], rest[j], query.sort.value)
  {
    var rows := Ordered(store, query);
    var r := GetProducts(store, query);
    assert multiset(rows) == multiset(Matching(store, query.category));
    assert r == rows[..|r|];
    assert LeftOut(store, query) == rows[|r|..];
    SortedSplit(rows, |r|, query.sort.value);
  }

  /** The matching rows a positive `take` leaves behind. */
  function LeftOut(store: seq<Product>, query: Query): seq<Product>
    requires Take(query.limit) > 0
  {
    var rows := Ordered(store, query);
    rows[|GetProducts(store, query)|..]
  }

  /**
   Splitting a sorted sequence at `k` keeps its rows, and every element of
   the prefix may precede every element of the suffix.
   */
  lemma SortedSplit(rows: seq<Product>, k: nat, dir: SortOrder)
    requires SortedBy(rows, dir) && k <= |rows|
    ensures multiset(rows[..k]) + multiset(rows[k..]) == multiset(rows)
    ensures forall i, j :: 0 <= i < k && 0 <= j < |rows| - k ==> InOrder(rows[..k][i], rows[k..][j], dir)
  {
    assert rows[..k] + rows[k..] == rows;
    forall i, j | 0 <= i < k && 0 <= j < |rows| - k ensures InOrder(rows[..k][i], rows[k..][j], dir) {
      assert rows[..k][i] == rows[i] && rows[k..][j] == rows[k + j];
    }
  }

  /** When the limit admits every matching row, all of them are returned. */
  lemma GetProductsReturnsAllWhenFew(store: seq<Product>, query: Query)
    requires |Matching(store, query.category)| <= Abs(Take(query.limit))
    ensures multiset(GetProducts(store, query)) == multiset(Matching(store, query.category))
  {
    var rows := Ordered(store, query);
    assert GetProducts(store, query) == TakeRows(rows, Take(query.limit)) == rows;
  }

  /** An absent limit and a limit of zero both mean four rows. */
  lemma ZeroLimitMeansFour(store: seq<Product>, category: Option<Category>, sort: Option<SortOrder>)
    ensures GetProducts(store, Query(category, sort, Some(0))) == GetProducts(store, Query(category, sort, None))
    ensures |GetProducts(store, Query(category, sort, None))| == Min(4, |Matching(store, category)|)
  {
  }

  // ----- getProductById -----

  /** The table's primary key: no two rows share an id. */
  predicate UniqueIds(store: seq<Product>) {
    forall i, j :: 0 <= i < j < |store| ==> store[i].id != store[j].id
  }

  /**
   `getProductById(id, status)`: the row with that id, if its status matches.
   `None` stands for the missing row, on which the code's non-null assertion
   fails when it reads the price.
   */
  function GetProductById(store: seq<Product>, id: string, status: Status): (r: Option<Product>)
    ensures r.Some? ==> r.value in store && r.value.id == id && r.value.status == status
    ensures r.None? <==> forall p :: p in store ==> !(p.id == id && p.status == status)
  {
    if store == [] then None
    else if store[0].id == id && store[0].status == status then Some(store[0])
    else GetProductById(store[1..], id, status)
  }

  /** With unique ids the lookup returns exactly the row stored under that id. */
  lemma {:induction false} GetProductByIdFindsStoredRow(store: seq<Product>, p: Product)
    requires UniqueIds(store)
    requires p in store
    ensures GetProductById(store, p.id, p.status) == Some(p)
  {
    if store[0] != p {
      assert store[0].id != p.id by {
        var j :| 0 <= j < |store| && store[j] == p;
        assert j != 0;
      }
      assert p in store[1..] by {
        var j :| 0 <= j < |store| && store[j] == p;
        assert store[1..][j - 1] == p;
      }
      assert UniqueIds(store[1..]) by {
        forall i, j | 0 <= i < j < |store[1..]| ensures store[1..][i].id != store[1..][j].id {
          assert store[1..][i] == store[i + 1] && store[1..][j] == store[j + 1];
        }
      }
      GetProductByIdFindsStoredRow(store[1..], p);
    }
  }
}

=== FILE: product_reel.dfy ===
/**
 The product reel: a grid that shows the products a query fetched, or a row
 of loading placeholders while there are none. The placeholder count is
 `query.limit ?? 4`, which treats a limit of 0 differently from the
 `query.limit || 4` the product query itself uses.
 */
module ProductReel {
  import opened Types
  import opened Schemas
  import ProductData

  /** `query.limit ?? 4`: only an absent limit falls back to four. */
  function PlaceholderCount(limit: Option<int>): (n: int)
    ensures limit.None? ==> n == 4
    ensures limit.Some? ==> n == limit.value
  {
    limit.GetOr(4)
  }

  /** The two fallbacks agree on every limit except 0. */
  lemma PlaceholderCountVersusTake(limit: Option<int>)
    ensures PlaceholderCount(limit) == ProductData.Take(limit) <==> limit != Some(0)
    ensures limit == None ==> PlaceholderCount(limit) == 4 && ProductData.Take(limit) == 4
    ensures limit == Some(0) ==> PlaceholderCount(limit) == 0 && ProductData.Take(limit) == 4
  {
  }

  /** The largest length a JavaScript array may have, 2^32 - 1. */
  const MaxArrayLength := 0xFFFF_FFFF

  /**
   The `map` array the reel renders: the fetched products in order when there
   are any, otherwise `limit ?? 4` null placeholders. `None` stands for the
   RangeError `new Array(n)` throws when the count is not a valid array
   length: negative, or above 2^32 - 1.
   */
  function Slots(products: seq<Product>, query: Query): (r: Option<seq<Option<Product>>>)
    ensures |products| > 0 ==>
              r.Some? && |r.value| == |products|
              && forall i :: 0 <= i < |products| ==> r.value[i] == Some(products[i])
    ensures |products| == 0 ==>
              && (r.Some? <==> 0 <= PlaceholderCount(query.limit) <= MaxArrayLength)
              && (r.Some? ==> |r.value| == PlaceholderCount(query.limit)
                              && forall i :: 0 <= i < |r.value| ==> r.value[i].None?)
  {
    if |products| > 0 then Some(seq(|products|, i requires 0 <= i < |products| => Some(products[i])))
    else
      var n := PlaceholderCount(query.limit);
      if n < 0 || n > MaxArrayLength then None else Some(seq(n, _ => None))
  }

  /** One rendered `ProductListing`: its product (or placeholder) and its `index` prop. */
  datatype Listing = Listing(product: Option<Product>, index: nat)

  /** One listing per slot, in slot order, each told its own position. */
  function Listings(slots: seq<Option<Product>>): (r: seq<Listing>)
    ensures |r| == |slots|
    ensures forall i :: 0 <= i < |r| ==> r[i].index == i && r[i].product == slots[i]
  {
    seq(|slots|, i requires 0 <= i < |slots| => Listing(slots[i], i))
  }

  /** With nothing fetched and no limit the reel shows four placeholders; with limit 0, none. */
  lemma EmptyReelPlaceholders(category: Option<Category>, sort: Option<SortOrder>)
    ensures Slots([], Query(category, sort, None)) == Some([None, None, None, None])
    ensures Slots([], Query(category, sort, Some(0))) == Some([])
  {
    var four := Slots([], Query(category, sort, None)).value;
    assert |four| == 4 && forall i :: 0 <= i < 4 ==> four[i] == None;
    assert four == [None, None, None, None];
  }

  /** A reel fed by the product query never shows more real products than the query's `take`. */
  lemma ReelOfQueryIsBounded(store: seq<Product>, query: Query)
    requires |ProductData.GetProducts(store, query)| > 0
    ensures var slots := Slots(ProductData.GetProducts(store, query), query);
            slots.Some? && |slots.value| <= ProductData.Abs(ProductData.Take(query.limit))
            && forall i :: 0 <= i < |slots.value| ==> slots.value[i].Some? && slots.value[i].value.status == Approved
  {
    var r := ProductData.GetProducts(store, query);
    assert forall i :: 0 <= i < |r| ==> r[i] in r;
  }
}

=== FILE: schemas.dfy ===
/**
 The form and query validators of the marketplace: the category enum, the
 create-product, become-seller and change-name forms, and the product query
 accepted by the product listing. Each schema is modelled twice: as a
 declarative validity predicate and as the list of issues the validator
 reports; the issue function's postcondition ties the two together (no
 issue exactly when valid).
 */
module Schemas {
  import opened Types

  /** Length of a string as JavaScript counts it: in UTF-16 code units. */
  function Utf16Length(s: string): (n: nat)
    ensures |s| <= n <= 2 * |s|
    ensures n == 0 <==> s == ""
    ensures (forall i :: 0 <= i < |s| ==> s[i] as int <= 0xFFFF) ==> n == |s|
  {
    if s == "" then 0
    else (if s[0] as int > 0xFFFF then 2 else 1) + Utf16Length(s[1..])
  }

  // ----- categories -----

  /** The spelling of a category in forms and URLs. */
  function CategoryName(c: Category): string {
    match c
    case UiKits => "ui_kits"
    case Icons => "icons"
  }

  /** The `categories` enum schema: exactly the two spellings are accepted. */
  function ParseCategory(s: string): (r: Option<Category>)
    ensures r.Some? <==> (s == "ui_kits" || s == "icons")
    ensures r.Some? ==> CategoryName(r.value) == s
  {
    if s == "ui_kits" then Some(UiKits)
    else if s == "icons" then Some(Icons)
    else None
  }

  lemma CategoryRoundTrip(c: Category)
    ensures ParseCategory(CategoryName(c)) == Some(c)
  {
  }

  // ----- messages shown next to a failing field -----

  const ImageUrlRequired := "Image URL is required"
  const NameRequired := "Product name is required"
  const DetailsRequired := "Product details are required"
  const DetailsTooLong := "Product details should not exceed 350 characters"
  const PriceRequired := "Price is required"
  const FileRequired := "Product file is required"
  const ImageRequired := "At least one image is required"
  const TooManyImages := "You can only provide up to 3 images"
  const EmailRequired := "Email is required"
  const SellerDetailsRequired := "Details about what you would like to sell is required!"
  const SellerDetailsTooLong := "Product details should not exceed 300 characters"

  // ----- issues -----

  datatype Field =
    | Name
    | ProductDetails
    | Price
    | CategoryField
    | ProductFile
    | ProductImages
    | ProductImage(index: nat)
    | Email

  datatype Code = TooSmall(minimum: nat) | TooBig(maximum: nat) | InvalidEnum

  /** One validation failure, with the message the form shows for it. */
  datatype Issue = Issue(field: Field, code: Code, message: string)

  /** True when some reported issue concerns `field`. */
  predicate Reports(issues: seq<Issue>, field: Field) {
    exists i :: 0 <= i < |issues| && issues[i].field == field
  }

  /** The issues of two checks, reported one after the other, concern a field iff either part does. */
  lemma ReportsAppend(a: seq<Issue>, b: seq<Issue>, field: Field)
    ensures Reports(a + b, field) <==> Reports(a, field) || Reports(b, field)
  {
    if Reports(a + b, field) {
      var i :| 0 <= i < |a + b| && (a + b)[i].field == field;
      if i >= |a| {
        assert b[i - |a|].field == field;
      }
    }
    if Reports(b, field) {
      var i :| 0 <= i < |b| && b[i].field == field;
      assert (a + b)[|a| + i] == b[i];
    }
    if Reports(a, field) {
      var i :| 0 <= i < |a| && a[i].field == field;
      assert (a + b)[i] == a[i];
    }
  }

  lemma ReportsSingle(x: Issue)
    ensures forall field :: Reports([x], field) <==> x.field == field
  {
    assert [x][0] == x;
  }

  /** `z.string().min(min, message)`. */
  function MinLength(field: Field, s: string, min: nat, message: string): (issues: seq<Issue>)
    ensures forall f :: Reports(issues, f) <==> f == field && Utf16Length(s) < min
  {
    ReportsSingle(Issue(field, TooSmall(min), message));
    if Utf16Length(s) < min then [Issue(field, TooSmall(min), message)] else []
  }

  /** `.max(max, message)` on a string. */
  function MaxLength(field: Field, s: string, max: nat, message: string): (issues: seq<Issue>)
    ensures forall f :: Reports(issues, f) <==> f == field && Utf16Length(s) > max
  {
    ReportsSingle(Issue(field, TooBig(max), message));
    if Utf16Length(s) > max then [Issue(field, TooBig(max), message)] else []
  }

  /** A string bounded by `.min(1, required)` and `.max(max, tooLong)`. */
  function DetailsIssues(s: string, max: nat, required: string, tooLong: string): (issues: seq<Issue>)
    requires 1 <= max
    ensures forall f :: Reports(issues, f) <==> f == ProductDetails && !(1 <= Utf16Length(s) <= max)
  {
    var short := MinLength(ProductDetails, s, 1, required);
    var long := MaxLength(ProductDetails, s, max, tooLong);
    forall f ensures Reports(short + long, f) <==> Reports(short, f) || Reports(long, f) {
      ReportsAppend(short, long, f);
    }
    short + long
  }

  /** zod's default message for a value outside the category enum: it lists the options and echoes the input. */
  function EnumMessage(received: string): string {
    "Invalid enum value. Expected 'ui_kits' | 'icons', received '" + received + "'"
  }

  /** The enum schema's issue, carrying zod's default message. */
  function CategoryIssues(s: string): (issues: seq<Issue>)
    ensures forall f :: Reports(issues, f) <==> f == CategoryField && ParseCategory(s).None?
    ensures |issues| <= 1
    ensures forall k :: 0 <= k < |issues| ==> issues[k].code == InvalidEnum && issues[k].message == EnumMessage(s)
  {
    ReportsSingle(Issue(CategoryField, InvalidEnum, EnumMessage(s)));
    if ParseCategory(s).Some? then []
    else [Issue(CategoryField, InvalidEnum, EnumMessage(s))]
  }

  /**
   The element schema of `productImages`, applied to every entry from
   position `from` on: one issue per empty URL, in order.
   */
  function ImageIssues(images: seq<string>, from: nat): (issues: seq<Issue>)
    requires from <= |images|
    decreases |images| - from
    ensures issues == [] <==> forall i :: from <= i < |images| ==> images[i] != ""
    ensures forall k :: 0 <= k < |issues| ==>
              issues[k].field.ProductImage? && from <= issues[k].field.index < |images|
              && images[issues[k].field.index] == ""
    ensures forall i :: from <= i < |images| && images[i] == "" ==> Reports(issues, ProductImage(i))
  {
    if from == |images| then []
    else
      var head := MinLength(ProductImage(from), images[from], 1, ImageUrlRequired);
      var tail := ImageIssues(images, from + 1);
      forall i | from <= i < |images| && images[i] == "" ensures Reports(head + tail, ProductImage(i)) {
        ReportsAppend(head, tail, ProductImage(i));
      }
      head + tail
  }

  // ----- create-product form -----

  datatype CreateProductForm = CreateProductForm(
    name: string,
    productDetails: string,
    price: string,
    category: string,
    productFile: string,
    productImages: seq<string>
  )

  /** What `createProductFormSchema` accepts. */
  predicate ValidCreateProduct(f: CreateProductForm) {
    && f.name != ""
    && 1 <= Utf16Length(f.productDetails) <= 350
    && f.price != ""
    && ParseCategory(f.category).Some?
    && f.productFile != ""
    && 1 <= |f.productImages| <= 3
    && forall i :: 0 <= i < |f.productImages| ==> f.productImages[i] != ""
  }

  /** The issues `createProductFormSchema` reports, field by field in declaration order. */
  function CreateProductIssues(f: CreateProductForm): (issues: seq<Issue>)
    ensures issues == [] <==> ValidCreateProduct(f)
  {
    var images := f.productImages;
    MinLength(Name, f.name, 1, NameRequired)
    + DetailsIssues(f.productDetails, 350, DetailsRequired, DetailsTooLong)
    + MinLength(Price, f.price, 1, PriceRequired)
    + CategoryIssues(f.category)
    + MinLength(ProductFile, f.productFile, 1, FileRequired)
    + ImageCountIssues(images)
    + ImageIssues(images, 0)
  }

  /** The `.min(1)` and `.max(3)` checks on the number of product images. */
  function ImageCountIssues(images: seq<string>): (issues: seq<Issue>)
    ensures forall f :: Reports(issues, f) <==> f == ProductImages && !(1 <= |images| <= 3)
  {
    ReportsSingle(Issue(ProductImages, TooSmall(1), ImageRequired));
    ReportsSingle(Issue(ProductImages, TooBig(3), TooManyImages));
    if |images| < 1 then [Issue(ProductImages, TooSmall(1), ImageRequired)]
    else if |images| > 3 then [Issue(ProductImages, TooBig(3), TooManyImages)]
    else []
  }

  /** A field other than a single image is flagged by the whole form iff one of the form-level checks flags it. */
  lemma CreateProductReports(f: CreateProductForm, field: Field)
    requires !field.ProductImage?
    ensures Reports(CreateProductIssues(f), field) <==>
              || Reports(MinLength(Name, f.name, 1, NameRequired), field)
              || Reports(DetailsIssues(f.productDetails, 350, DetailsRequired, DetailsTooLong), field)
              || Reports(MinLength(Price, f.price, 1, PriceRequired), field)
              || Reports(CategoryIssues(f.category), field)
              || Reports(MinLength(ProductFile, f.productFile, 1, FileRequired), field)
              || Reports(ImageCountIssues(f.productImages), field)
  {
    var n := MinLength(Name, f.name, 1, NameRequired);
    var d := DetailsIssues(f.productDetails, 350, DetailsRequired, DetailsTooLong);
    var p := MinLength(Price, f.price, 1, PriceRequired);
    var c := CategoryIssues(f.category);
    var pf := MinLength(ProductFile, f.productFile, 1, FileRequired);
    var ic := ImageCountIssues(f.productImages);
    var el := ImageIssues(f.productImages, 0);
    assert CreateProductIssues(f) == n + d + p + c + pf + ic + el;
    ReportsAppend(n, d, field);
    ReportsAppend(n + d, p, field);
    ReportsAppend(n + d + p, c, field);
    ReportsAppend(n + d + p + c, pf, field);
    ReportsAppend(n + d + p + c + pf, ic, field);
    ReportsAppend(n + d + p + c + pf + ic, el, field);
  }

  /** Each field of the create-product form is flagged exactly when its own rule fails. */
  lemma CreateProductFieldIssues(f: CreateProductForm)
    ensures Reports(CreateProductIssues(f), Name) <==> f.name == ""
    ensures Reports(CreateProductIssues(f), ProductDetails) <==> !(1 <= Utf16Length(f.productDetails) <= 350)
    ensures Reports(CreateProductIssues(f), Price) <==> f.price == ""
    ensures Reports(CreateProductIssues(f), CategoryField) <==> ParseCategory(f.category).None?
    ensures Reports(CreateProductIssues(f), ProductFile) <==> f.productFile == ""
    ensures Reports(CreateProductIssues(f), ProductImages) <==> !(1 <= |f.productImages| <= 3)
  {
    CreateProductReports(f, Name);
    CreateProductReports(f, ProductDetails);
    CreateProductReports(f, Price);
    CreateProductReports(f, CategoryField);
    CreateProductReports(f, ProductFile);
    CreateProductReports(f, ProductImages);
  }

  // ----- become-seller form -----

  datatype BecomeSellerForm = BecomeSellerForm(email: string, productDetails: string, category: string)

  /** What `becomeSellerFormSchema` accepts; the email's format is not checked. */
  predicate ValidBecomeSeller(f: BecomeSellerForm) {
    && f.email != ""
    && 1 <= Utf16Length(f.productDetails) <= 300
    && ParseCategory(f.category).Some?
  }

  function BecomeSellerIssues(f: BecomeSellerForm): (issues: seq<Issue>)
    ensures issues == [] <==> ValidBecomeSeller(f)
  {
    MinLength(Email, f.email, 1, EmailRequired)
    + DetailsIssues(f.productDetails, 300, SellerDetailsRequired, SellerDetailsTooLong)
    + CategoryIssues(f.category)
  }

  /** A field is flagged by the whole form iff one of the per-field checks flags it. */
  lemma BecomeSellerReports(f: BecomeSellerForm, field: Field)
    ensures Reports(BecomeSellerIssues(f), field) <==>
              || Reports(MinLength(Email, f.email, 1, EmailRequired), field)
              || Reports(DetailsIssues(f.productDetails, 300, SellerDetailsRequired, SellerDetailsTooLong), field)
              || Reports(CategoryIssues(f.category), field)
  {
    var e := MinLength(Email, f.email, 1, EmailRequired);
    var d := DetailsIssues(f.productDetails, 300, SellerDetailsRequired, SellerDetailsTooLong);
    var c := CategoryIssues(f.category);
    assert BecomeSellerIssues(f) == e + d + c;
    ReportsAppend(e, d, field);
    ReportsAppend(e + d, c, field);
  }

  /** Each field of the become-seller form is flagged exactly when its own rule fails. */
  lemma BecomeSellerFieldIssues(f: BecomeSellerForm)
    ensures Reports(BecomeSellerIssues(f), Email) <==> f.email == ""
    ensures Reports(BecomeSellerIssues(f), ProductDetails) <==> !(1 <= Utf16Length(f.productDetails) <= 300)
    ensures Reports(BecomeSellerIssues(f), CategoryField) <==> ParseCategory(f.category).None?
  {
    BecomeSellerReports(f, Email);
    BecomeSellerReports(f, ProductDetails);
    BecomeSellerReports(f, CategoryField);
  }

  // ----- change-product-name form -----

  /** `changeProductNameFormSchema`: accepts exactly the non-empty names. */
  function ChangeNameIssues(name: string): (issues: seq<Issue>)
    ensures issues == [] <==> name != ""
    ensures forall i :: 0 <= i < |issues| ==> issues[i].field == Name
  {
    MinLength(Name, name, 1, NameRequired)
  }

  // ----- product query -----

  /** A query as it arrives, before validation. */
  datatype RawQuery = RawQuery(category: Option<string>, sort: Option<string>, limit: Option<int>)

  /** `TQueryValidator`: every field is optional. */
  datatype Query = Query(category: Option<Category>, sort: Option<SortOrder>, limit: Option<int>)

  function SortName(o: SortOrder): string {
    match o
    case Asc => "asc"
    case Desc => "desc"
  }

  function ParseSort(s: string): (r: Option<SortOrder>)
    ensures r.Some? <==> (s == "asc" || s == "desc")
    ensures r.Some? ==> SortName(r.value) == s
  {
    if s == "asc" then Some(Asc)
    else if s == "desc" then Some(Desc)
    else None
  }

  /** `QueryValidator.safeParse`: absent fields pass; present ones must be in their enum. */
  function ParseQuery(raw: RawQuery): (r: Option<Query>)
    ensures r.Some? <==>
              && (raw.category.None? || ParseCategory(raw.category.value).Some?)
              && (raw.sort.None? || ParseSort(raw.sort.value).Some?)
    ensures r.Some? ==> r.value.limit == raw.limit
  {
    var category :=
      match raw.category
      case None => Some(None)
      case Some(s) => if ParseCategory(s).Some? then Some(ParseCategory(s)) else None;
    var sort :=
      match raw.sort
      case None => Some(None)
      case Some(s) => if ParseSort(s).Some? then Some(ParseSort(s)) else None;
    if category.Some? && sort.Some? then Some(Query(category.value, sort.value, raw.limit)) else None
  }

  /** The raw form of a validated query. */
  function EncodeQuery(q: Query): RawQuery {
    RawQuery(
      match q.category case None => None case Some(c) => Some(CategoryName(c)),
      match q.sort case None => None case Some(o) => Some(SortName(o)),
      q.limit)
  }

  lemma QueryRoundTrip(q: Query)
    ensures ParseQuery(EncodeQuery(q)) == Some(q)
  {
  }

  lemma QueryParseIsEncodeInverse(raw: RawQuery)
    ensures ParseQuery(raw).Some? ==> EncodeQuery(ParseQuery(raw).value) == raw
  {
  }
}

=== FILE: site_metadata.dfy ===
/**
 `constructMetadata`: the page metadata record (title, description, social
 previews, icons, base URL and, for pages that must not be indexed, robots
 directives) built from optional arguments with site-wide defaults.
 */
module SiteMetadata {
  import opened Types

  const DefaultTitle := "NeonCloud - custom high-quality digital products"
  const DefaultDescription := "Order your custom high-quality digital product in seconds"
  const DefaultImage := "/neoncloud-thumbnail.png"
  const DefaultIcons := "/favicon.ico"
  const Creator := "@miqueldewit"
  const BaseUrl := "https://neoncloud.vercel.app/"

  /** The arguments; `None` is an omitted (undefined) argument. */
  datatype MetadataArgs = MetadataArgs(
    title: Option<string>,
    description: Option<string>,
    image: Option<string>,
    icons: Option<string>,
    noIndex: Option<bool>
  )

  const NoArgs := MetadataArgs(None, None, None, None, None)

  datatype OpenGraphImage = OpenGraphImage(url: string)

  datatype OpenGraph = OpenGraph(title: string, description: string, images: seq<OpenGraphImage>)

  datatype Twitter = Twitter(card: string, title: string, description: string, images: seq<string>, creator: string)

  datatype Robots = Robots(index: bool, follow: bool)

  datatype Metadata = Metadata(
    title: string,
    description: string,
    openGraph: OpenGraph,
    twitter: Twitter,
    icons: string,
    metadataBase: string,
    robots: Option<Robots>
  )

  function ConstructMetadata(args: MetadataArgs): (m: Metadata)
    ensures m.title == args.title.GetOr(DefaultTitle)
    ensures m.description == args.description.GetOr(DefaultDescription)
    ensures m.openGraph == OpenGraph(m.title, m.description, [OpenGraphImage(args.image.GetOr(DefaultImage))])
    ensures m.twitter == Twitter("summary_large_image", m.title, m.description, [args.image.GetOr(DefaultImage)], Creator)
    ensures m.icons == args.icons.GetOr(DefaultIcons)
    ensures m.metadataBase == BaseUrl
    ensures m.robots.Some? <==> args.noIndex == Some(true)
    ensures m.robots.Some? ==> !m.robots.value.index && !m.robots.value.follow
  {
    var title := args.title.GetOr(DefaultTitle);
    var description := args.description.GetOr(DefaultDescription);
    var image := args.image.GetOr(DefaultImage);
    var noIndex := args.noIndex.GetOr(false);
    Metadata(
      title,
      description,
      OpenGraph(title, description, [OpenGraphImage(image)]),
      Twitter("summary_large_image", title, description, [image], Creator),
      args.icons.GetOr(DefaultIcons),
      BaseUrl,
      if noIndex then Some(Robots(false, false)) else None)
  }

  /** Called without arguments, every field takes its default and robots directives are absent. */
  lemma DefaultMetadata()
    ensures var m := ConstructMetadata(NoArgs);
            && m.title == DefaultTitle
            && m.description == DefaultDescription
            && m.openGraph.images == [OpenGraphImage(DefaultImage)]
            && m.icons == DefaultIcons
            && m.robots.None?
  {
  }

  /** The social previews always repeat the page's own title and description. */
  lemma PreviewsMatchPage(args: MetadataArgs)
    ensures var m := ConstructMetadata(args);
            && m.openGraph.title == m.twitter.title == m.title
            && m.openGraph.description == m.twitter.description == m.description
            && m.openGraph.images[0].url == m.twitter.images[0]
  {
  }
}

=== FILE: stripe_webhook.dfy ===
/**
 The payment webhook: the handler the payment provider calls when a checkout
 session changes state. It rejects unsigned requests, ignores every event but
 a completed checkout session, and for a completed one marks the order named
 in the session's metadata paid, records a shipping and a billing address for
 it, and then asks the mail endpoint to send an order confirmation.

 The order table is a map from order id to order. The provider's signature
 check is an input (`Verification`), and so is whether the request to the
 mail endpoint throws.
 */
module StripeWebhook {
  import opened Types

  // ----- the order table -----

  datatype Address = Address(
    name: string,
    city: string,
    country: string,
    postalCode: string,
    street: string,
    state: Option<string>
  )

  /**
   An order. The address fields list the address rows created for the order,
   oldest first: the handler creates one of each per completed delivery.
   */
  datatype Order = Order(
    id: string,
    userId: string,
    isPaid: bool,
    createdAt: int,
    productIds: seq<string>,
    shippingAddresses: seq<Address>,
    billingAddresses: seq<Address>
  )

  type Store = map<string, Order>

  // ----- what the provider sends -----

  datatype ProviderAddress = ProviderAddress(
    city: Option<string>,
    country: Option<string>,
    postalCode: Option<string>,
    line1: Option<string>,
    state: Option<string>
  )

  datatype CustomerDetails = CustomerDetails(email: Option<string>, name: Option<string>, address: Option<ProviderAddress>)

  datatype ShippingDetails = ShippingDetails(address: Option<ProviderAddress>)

  /** The checkout session an event carries; `metadata` is the key/value map set at checkout. */
  datatype Session = Session(
    customerDetails: Option<CustomerDetails>,
    shippingDetails: Option<ShippingDetails>,
    metadata: Option<map<string, string>>
  )

  datatype Event = Event(eventType: string, session: Session)

  const CheckoutCompleted := "checkout.session.completed"

  /** What `constructEvent` makes of the body and signature: the parsed event, or a thrown error. */
  datatype Verification = Authentic(event: Event) | Forged

  // ----- what the handler answers -----

  /** The causes the outer `catch` turns into a 500 response. */
  datatype Failure =
    | VerificationFailed
    | MissingUserEmail
    | InvalidMetadata
    | MissingAddressData
    | OrderNotFound

  datatype Response =
    | InvalidSignature
    | SomethingWentWrong(cause: Failure)
    | EmailNotSent
    | Received(event: Event)

  /** The HTTP status of each response. */
  function StatusCode(r: Response): (code: int)
    ensures code == 400 <==> r.InvalidSignature?
    ensures code == 200 <==> r.Received?
    ensures code == 500 <==> r.SomethingWentWrong? || r.EmailNotSent?
  {
    match r
    case InvalidSignature => 400
    case SomethingWentWrong(_) => 500
    case EmailNotSent => 500
    case Received(_) => 200
  }

  /** The request body sent to the mail endpoint. */
  datatype EmailData = EmailData(
    orderId: string,
    emailTo: string,
    orderDate: int,
    name: string,
    city: string,
    country: string,
    postalCode: string,
    street: string,
    state: Option<string>
  )

  /** The response, the order table afterwards, and the mail request made, if any. */
  datatype Outcome = Outcome(response: Response, store: Store, notification: Option<EmailData>)

  // ----- steps of the handler -----

  /** The value of a metadata key, absent when the map or the key is missing. */
  function MetadataValue(metadata: Option<map<string, string>>, key: string): (v: Option<string>)
    ensures v.Some? <==> metadata.Some? && key in metadata.value
    ensures v.Some? ==> v.value == metadata.value[key]
  {
    match metadata
    case None => None
    case Some(m) => if key in m then Some(m[key]) else None
  }

  /**
   The address row built from a provider address and the customer's name.
   `None` when the address itself is missing (the non-null assertion throws)
   or a required column would receive null (the database rejects the write).
   */
  function ToAddress(name: Option<string>, a: Option<ProviderAddress>): (r: Option<Address>)
    ensures r.Some? <==>
              name.Some? && a.Some? && a.value.city.Some? && a.value.country.Some?
              && a.value.postalCode.Some? && a.value.line1.Some?
    ensures r.Some? ==>
              && r.value.name == name.value
              && r.value.city == a.value.city.value
              && r.value.country == a.value.country.value
              && r.value.postalCode == a.value.postalCode.value
              && r.value.street == a.value.line1.value
              && r.value.state == a.value.state
  {
    if name.None? || a.None? then None
    else
      var x := a.value;
      if x.city.None? || x.country.None? || x.postalCode.None? || x.line1.None? then None
      else Some(Address(name.value, x.city.value, x.country.value, x.postalCode.value, x.line1.value, x.state))
  }

  /** The order after payment: paid, with one more shipping and one more billing address row. */
  function MarkPaid(o: Order, shipping: Address, billing: Address): (r: Order)
    ensures r.isPaid
    ensures r.shippingAddresses == o.shippingAddresses + [shipping]
    ensures r.billingAddresses == o.billingAddresses + [billing]
    ensures r.id == o.id && r.userId == o.userId && r.createdAt == o.createdAt && r.productIds == o.productIds
  {
    o.(isPaid := true,
       shippingAddresses := o.shippingAddresses + [shipping],
       billingAddresses := o.billingAddresses + [billing])
  }

  /** Only the named order changes; every other order, and the set of orders, stay as they were. */
  predicate OnlyChanged(before: Store, after: Store, id: string) {
    && after.Keys == before.Keys
    && forall k :: k in before && k != id ==> after[k] == before[k]
  }

  /** The shipping address the session carries, built with the customer's name. */
  function ShippingAddressOf(s: Session): Option<Address>
    requires s.customerDetails.Some?
  {
    if s.shippingDetails.None? then None
    else ToAddress(s.customerDetails.value.name, s.shippingDetails.value.address)
  }

  /** The billing address the session carries, built with the customer's name. */
  function BillingAddressOf(s: Session): Option<Address>
    requires s.customerDetails.Some?
  {
    ToAddress(s.customerDetails.value.name, s.customerDetails.value.address)
  }

  /**
   The `POST` handler. The steps, in the order the handler runs them:
   signature header present; `constructEvent` accepts it; event type; the
   customer's email; `userId` and `orderId` in the metadata; the addresses;
   the update of the order; the mail request. An error thrown at any step
   before the update leaves the table untouched; the mail request comes after
   the update and a failure there does not undo it.
   */
  function Post(signature: Option<string>, verification: Verification, fetchThrows: bool, store: Store): (out: Outcome)
    ensures StatusCode(out.response) == 400 <==> !Present(signature)
    ensures out.store != store ==> out.response.Received? || out.response.EmailNotSent?
    ensures out.notification.Some? <==> out.response.EmailNotSent? || (out.response.Received? && out.store != store)
    ensures out.response.EmailNotSent? <==> out.notification.Some? && fetchThrows
    ensures out.store.Keys == store.Keys
    ensures out.notification.Some? ==>
              var id := out.notification.value.orderId;
              && id in store
              && OnlyChanged(store, out.store, id)
              && out.store[id].isPaid
              && |out.store[id].shippingAddresses| == |store[id].shippingAddresses| + 1
              && |out.store[id].billingAddresses| == |store[id].billingAddresses| + 1
  {
    if !Present(signature) then Outcome(InvalidSignature, store, None)
    else if verification.Forged? then Outcome(SomethingWentWrong(VerificationFailed), store, None)
    else
      var event := verification.event;
      if event.eventType != CheckoutCompleted then Outcome(Received(event), store, None)
      else
        var session := event.session;
        if session.customerDetails.None? || !Present(session.customerDetails.value.email) then
          Outcome(SomethingWentWrong(MissingUserEmail), store, None)
        else
          var userId := MetadataValue(session.metadata, "userId");
          var orderId := MetadataValue(session.metadata, "orderId");
          if !Present(userId) || !Present(orderId) then
            Outcome(SomethingWentWrong(InvalidMetadata), store, None)
          else
            var shipping := ShippingAddressOf(session);
            var billing := BillingAddressOf(session);
            if shipping.None? || billing.None? then
              Outcome(SomethingWentWrong(MissingAddressData), store, None)
            else if orderId.value !in store then
              Outcome(SomethingWentWrong(OrderNotFound), store, None)
            else
              var id := orderId.value;
              var updated := MarkPaid(store[id], shipping.value, billing.value);
              var email := EmailData(
                id, session.customerDetails.value.email.value, updated.createdAt,
                shipping.value.name, shipping.value.city, shipping.value.country,
                shipping.value.postalCode, shipping.value.street, shipping.value.state);
              var after := store[id := updated];
              Outcome(if fetchThrows then EmailNotSent else Received(event), after, Some(email))
  }

  // ----- properties of the handler -----

  /** Without a signature header (absent or empty) the answer is 400 and nothing happens. */
  lemma MissingSignatureRejected(signature: Option<string>, verification: Verification, fetchThrows: bool, store: Store)
    requires !Present(signature)
    ensures Post(signature, verification, fetchThrows, store) == Outcome(InvalidSignature, store, None)
  {
  }

  /** A signature the provider's check rejects is caught and answered with 500, not 400. */
  lemma ForgedSignatureIsServerError(signature: Option<string>, fetchThrows: bool, store: Store)
    requires Present(signature)
    ensures var out := Post(signature, Forged, fetchThrows, store);
            StatusCode(out.response) == 500 && out.store == store && out.notification.None?
  {
  }

  /** Only an authentic request can change the order table. */
  lemma OnlyAuthenticRequestsMutate(signature: Option<string>, verification: Verification, fetchThrows: bool, store: Store)
    requires Post(signature, verification, fetchThrows, store).store != store
    ensures Present(signature) && verification.Authentic?
    ensures verification.event.eventType == CheckoutCompleted
  {
  }

  /** Every other event type is acknowledged with `ok: true` and changes nothing. */
  lemma OtherEventsIgnored(signature: Option<string>, event: Event, fetchThrows: bool, store: Store)
    requires Present(signature) && event.eventType != CheckoutCompleted
    ensures Post(signature, Authentic(event), fetchThrows, store) == Outcome(Received(event), store, None)
  {
  }

  /**
   A completed session without the customer's email fails with 500 and
   changes nothing; the email is checked first, so a session that also lacks
   its metadata still reports the missing email.
   */
  lemma MissingEmailCheckedFirst(signature: Option<string>, event: Event, fetchThrows: bool, store: Store)
    requires Present(signature) && event.eventType == CheckoutCompleted
    requires event.session.customerDetails.None? || !Present(event.session.customerDetails.value.email)
    ensures Post(signature, Authentic(event), fetchThrows, store)
              == Outcome(SomethingWentWrong(MissingUserEmail), store, None)
  {
  }

  /** With the email present, a missing or empty `userId` or `orderId` fails with 500 and changes nothing. */
  lemma MissingMetadataRejected(signature: Option<string>, event: Event, fetchThrows: bool, store: Store)
    requires Present(signature) && event.eventType == CheckoutCompleted
    requires event.session.customerDetails.Some? && Present(event.session.customerDetails.value.email)
    requires !Present(MetadataValue(event.session.metadata, "userId"))
             || !Present(MetadataValue(event.session.metadata, "orderId"))
    ensures Post(signature, Authentic(event), fetchThrows, store)
              == Outcome(SomethingWentWrong(InvalidMetadata), store, None)
  {
  }

  /** A completed session that passes every check. */
  predicate Deliverable(signature: Option<string>, event: Event, store: Store) {
    && Present(signature)
    && event.eventType == CheckoutCompleted
    && event.session.customerDetails.Some?
    && Present(event.session.customerDetails.value.email)
    && Present(MetadataValue(event.session.metadata, "userId"))
    && Present(MetadataValue(event.session.metadata, "orderId"))
    && ShippingAddressOf(event.session).Some?
    && BillingAddressOf(event.session).Some?
    && MetadataValue(event.session.metadata, "orderId").value in store
  }

  /**
   On success the order named by `orderId` is paid and gains the session's
   shipping address (from the shipping details) and billing address (from
   the customer details), both under the customer's name; no other order
   changes. The mail request carries the order id, the customer's email, the
   order's creation time and the full shipping address under the customer's name.
   */
  lemma CompletedSessionMarksOrderPaid(signature: Option<string>, event: Event, fetchThrows: bool, store: Store)
    requires Deliverable(signature, event, store)
    ensures var out := Post(signature, Authentic(event), fetchThrows, store);
            var s := event.session;
            var id := s.metadata.value["orderId"];
            var name := s.customerDetails.value.name.value;
            var ship := s.shippingDetails.value.address.value;
            var bill := s.customerDetails.value.address.value;
            && id in out.store
            && out.store[id].isPaid
            && out.store[id].shippingAddresses == store[id].shippingAddresses
                 + [Address(name, ship.city.value, ship.country.value, ship.postalCode.value, ship.line1.value, ship.state)]
            && out.store[id].billingAddresses == store[id].billingAddresses
                 + [Address(name, bill.city.value, bill.country.value, bill.postalCode.value, bill.line1.value, bill.state)]
            && out.store[id].(isPaid := store[id].isPaid,
                              shippingAddresses := store[id].shippingAddresses,
                              billingAddresses := store[id].billingAddresses) == store[id]
            && OnlyChanged(store, out.store, id)
            && out.notification == Some(EmailData(id, s.customerDetails.value.email.value, store[id].createdAt,
                                                  name, ship.city.value, ship.country.value, ship.postalCode.value,
                                                  ship.line1.value, ship.state))
  {
  }

  /** The order invariant: an order has address rows of both kinds exactly when it is paid. */
  predicate PaidIffAddressed(store: Store) {
    forall k :: k in store ==>
      (store[k].isPaid <==> |store[k].shippingAddresses| > 0 && |store[k].billingAddresses| > 0)
  }

  /** Every request keeps the order invariant, and no paid order becomes unpaid. */
  lemma PostKeepsPaidIffAddressed(signature: Option<string>, verification: Verification, fetchThrows: bool, store: Store)
    requires PaidIffAddressed(store)
    ensures var out := Post(signature, verification, fetchThrows, store);
            && PaidIffAddressed(out.store)
            && forall k :: k in store && store[k].isPaid ==> k in out.store && out.store[k].isPaid
  {
  }

  /** A failing mail request turns the answer into a 500 but leaves the order paid. */
  lemma EmailFailureKeepsPayment(signature: Option<string>, event: Event, store: Store)
    requires Deliverable(signature, event, store)
    ensures var sent := Post(signature, Authentic(event), false, store);
            var failed := Post(signature, Authentic(event), true, store);
            && failed.store == sent.store
            && failed.notification == sent.notification
            && StatusCode(failed.response) == 500
            && sent.response == Received(event)
  {
  }

  /** The `userId` in the metadata must be present but does not choose the order. */
  lemma UserIdDoesNotSelectOrder(signature: Option<string>, event: Event, otherUser: string, fetchThrows: bool, store: Store)
    requires event.session.metadata.Some? && otherUser != ""
    ensures var m := event.session.metadata.value;
            var event' := event.(session := event.session.(metadata := Some(m["userId" := otherUser])));
            var out := Post(signature, Authentic(event), fetchThrows, store);
            var out' := Post(signature, Authentic(event'), fetchThrows, store);
            Present(MetadataValue(event.session.metadata, "userId")) ==>
              && out'.store == out.store
              && out'.notification == out.notification
              && StatusCode(out'.response) == StatusCode(out.response)
  {
    var m := event.session.metadata.value;
    var m' := m["userId" := otherUser];
    assert MetadataValue(Some(m'), "orderId") == MetadataValue(Some(m), "orderId");
  }

  /**
   Delivering the same completed event twice leaves the order paid, but there
   is no "already paid" guard: the second delivery records a second shipping
   and a second billing address and sends a second mail.
   */
  lemma RedeliveryIsNotIdempotent(signature: Option<string>, event: Event, store: Store)
    requires Deliverable(signature, event, store)
    ensures var id := event.session.metadata.value["orderId"];
            var once := Post(signature, Authentic(event), false, store);
            var twice := Post(signature, Authentic(event), false, once.store);
            && twice.store[id].isPaid
            && |twice.store[id].shippingAddresses| == |store[id].shippingAddresses| + 2
            && |twice.store[id].billingAddresses| == |store[id].billingAddresses| + 2
            && twice.store != once.store
            && twice.notification.Some?
  {
    var id := event.session.metadata.value["orderId"];
    var once := Post(signature, Authentic(event), false, store);
    CompletedSessionMarksOrderPaid(signature, event, false, store);
    assert Deliverable(signature, event, once.store);
    CompletedSessionMarksOrderPaid(signature, event, false, once.store);
    assert |Post(signature, Authentic(event), false, once.store).store[id].shippingAddresses|
           == |once.store[id].shippingAddresses| + 1;
  }

  // ----- the guarded variant -----

  /**
   The handler with an "already paid" guard: a completed session for an
   order that is already paid is acknowledged without touching the order or
   sending another mail.
   */
  function PostGuarded(signature: Option<string>, verification: Verification, fetchThrows: bool, store: Store): (out: Outcome)
    ensures out.store.Keys == store.Keys
    ensures out.store != store ==> out.response.Received? || out.response.EmailNotSent?
  {
    if verification.Authentic?
       && Deliverable(signature, verification.event, store)
       && store[MetadataValue(verification.event.session.metadata, "orderId").value].isPaid
    then Outcome(Received(verification.event), store, None)
    else Post(signature, verification, fetchThrows, store)
  }

  /** With the guard, a redelivery changes nothing and sends no second mail. */
  lemma GuardedRedeliveryIsIdempotent(signature: Option<string>, event: Event, fetchThrows: bool, store: Store)
    ensures var once := PostGuarded(signature, Authentic(event), fetchThrows, store);
            var twice := PostGuarded(signature, Authentic(event), fetchThrows, once.store);
            twice.store == once.store
            && (once.store != store ==> twice.notification.None? && twice.response == Received(event))
  {
    var once := PostGuarded(signature, Authentic(event), fetchThrows, store);
    if once.store != store {
      assert Deliverable(signature, event, store);
      CompletedSessionMarksOrderPaid(signature, event, fetchThrows, store);
      assert Deliverable(signature, event, once.store);
    }
  }
}

=== FILE: types.dfy ===
/**
 The records and enums the marketplace's database schema provides to the rest
 of the model: the optional-value wrapper that stands for TypeScript's
 `T | null | undefined`, product categories and statuses, and the product row.
 */
module Types {

  /** A value that may be absent (`null` or `undefined` in the application). */
  datatype Option<+T> = None | Some(value: T) {
    function GetOr(default: T): T {
      match this
      case Some(v) => v
      case None => default
    }
  }

  /** JavaScript truthiness of an optional string: absent and "" are falsy. */
  predicate Present(s: Option<string>) {
    s.Some? && s.value != ""
  }

  /** The database enum `ProductCategories`. */
  datatype Category = UiKits | Icons

  /** The database enum `Status`, used for products and seller requests alike. */
  datatype Status = Pending | Approved | Denied

  /** Direction of an ordering on a column. */
  datatype SortOrder = Asc | Desc

  /**
   A product row as the client sees it (`ProductType`): every column of the
   database row, with `price` already converted to a number. Prices are exact
   reals; `createdAt` is a timestamp in milliseconds.
   */
  datatype Product = Product(
    id: string,
    userId: string,
    name: string,
    productDetails: string,
    price: real,
    category: Category,
    status: Status,
    productFile: string,
    productImages: seq<string>,
    createdAt: int
  )
}
